=== FILE: README.md ===
# DCR-Blog views: recommendation selector and ask-AI helpers

This project models the deterministic logic in the blog application's view
module `blogs/views.py`, written in Dafny.

- **Recommended posts.** The single-post page shows up to three other posts.
  - With fewer than three other published posts, it shows them as they are.
  - Otherwise it ranks the candidates with a similarity search. It keeps the
    first occurrence of each hit id and drops the current post's id. It
    truncates the result to three ids.
  - If that gives fewer than three ids, it backfills from a shuffled list of
    the candidates not yet chosen.

  The model gets the similarity hits as an arbitrary `seq<int>`. It gets the
  shuffle as a function that must return a permutation of its argument
  (`IsShuffle`). It proves these properties of the selected ids:
  - they are distinct;
  - they never include the current post;
  - there are exactly `min(3, #candidates)` of them;
  - the first three ranked ids stay as a prefix;
  - backfill only appends candidates that are not chosen yet.
- **Ask the AI.** The view formats the retrieved chunks into one context. The
  chunk texts keep retrieval order and are separated by a blank line
  (`format_docs`). If nothing is retrieved, a zero-retrieval gate answers with
  a fixed sentence and does not call the model. Otherwise the model answers.
  Its answer is stripped of surrounding whitespace (`str.strip()`) and
  appended to the chat history in the session. Retrieval is the `retrieved`
  argument. The language model is the `generate` argument: a function from
  context and question to `Answered(text)` or `Failed`.

Modules:
- `Seqs` (`seqs.dfy`): distinctness, first occurrences and permutations.
- `Recommend` (`recommend.dfy`): the recommendation selector.
- `Text` (`text.dfy`): `str.join` and `str.strip()`.
- `AskAi` (`ask_ai.dfy`): the ask-AI helpers.

The hits are not required to be candidate ids. The code itself guards against
hits that name the current post or repeat an id, so the model does too.
Distinctness, exclusion of the current post and the exact length hold for any
hit list. "Every recommended id is a published post" is proved under the
hypothesis that every hit is a candidate. This is an assumption about the
vector store, not something the code enforces. The request adds only the
candidates to the collection (blogs/views.py:69-71), but the collection has a
fixed name (line 82). If the store keeps ids from earlier requests, a hit can
name a post that is not a candidate. The guard against the current post at
line 92 is only needed in that case.

On the failure path, the code catches the model's error (line 249). It leaves
`raw_answer` unassigned. The very next statement, which formats the displayed
answer (line 255), then fails. See "Findings".

## Model

| member | source | states |
|---|---|---|
| Recommend.OtherPublishedIds | blogs/views.py:61 | The candidates are exactly the published posts other than the current one. They are duplicate-free when post ids are unique. |
| Recommend.OtherPublishedIdsInTableOrder | blogs/views.py:61-65 | The candidates keep the query's row order: of two candidate rows, the earlier row's id comes first. The short-list path returns them in that order. |
| Recommend.RankedIds | blogs/views.py:89-93 | The ranked ids are duplicate-free and never the current post. They are exactly the hit ids other than the current one. |
| Recommend.RankedIdsInHitOrder | blogs/views.py:89-93 | Ranked ids appear in the order of their first occurrence among the hits. |
| Recommend.RankedIdsUnique | blogs/views.py:89-93 | Reference characterisation: only one list is duplicate-free, holds exactly the hit ids other than the current one, and is in first-hit order. That list is the ranked list. |
| Recommend.CollectRankedIds | blogs/views.py:89-93 | The hit-by-hit loop computes the ranked list. Its result is duplicate-free and excludes the current id. |
| Recommend.Top | blogs/views.py:96 | Truncation gives a prefix of the ranked list with at most 3 ids. It has exactly 3 ids when at least 3 were ranked, and is the whole list otherwise. |
| Recommend.Pool | blogs/views.py:103-105 | The fallback list holds exactly the candidates not already chosen. It is duplicate-free when the candidates are. |
| Recommend.PoolCoversShortfall | blogs/views.py:99-108 | The fallback list has at least as many ids as are missing from the candidates, so it can fill the shortfall. |
| Recommend.Backfill | blogs/views.py:99-108 | Backfill only appends. The chosen ids stay a prefix, the appended ids are a prefix of the shuffled fallback, and the length becomes min(3, chosen + available). |
| Recommend.BackfillFromPool | blogs/views.py:99-108 | Backfilling a short ranked list from any permutation of the fallback list reaches exactly 3 distinct ids. Each id is already ranked or is a candidate. |
| Recommend.Recommend | blogs/views.py:63-108 | The result has min(3, candidates) distinct ids and never the current id. With fewer than 3 candidates it is the candidates in their order. Otherwise the truncated ranked list is a prefix, and the ids after it are a prefix of the shuffled fallback list. Every id is a candidate or a hit, and a candidate when all hits are. |
| Recommend.RecommendedIds | blogs/views.py:58-108 | On the post table, the result has min(3, other published posts) distinct ids and never the current id. When the hits name only candidates, each id is a published post. With fewer than 3 candidates, it is exactly the candidates in table order. |
| Text.Join | blogs/views.py:141 | `sep.join`: "" for no parts and the part itself for one. The length is the parts' lengths plus one separator per gap, and the first part is a prefix. |
| Text.JoinSplit | blogs/views.py:141 | Joining a list equals joining a prefix, a separator, and joining the rest. |
| Text.PartAtOffset | blogs/views.py:141 | Each part appears in the joined text at its offset, in list order. Every part but the first is preceded by the separator. |
| Text.Strip | blogs/views.py:267 | `str.strip()`: the result has no whitespace at either end. It is a contiguous slice of the input whose cut-off head and tail are all whitespace. |
| Text.StripUnique | blogs/views.py:267 | Reference characterisation: a slice of the input with no whitespace at either end, whose cut-off head and tail are all whitespace, is the stripped string. |
| Text.StripIdempotent | blogs/views.py:267 | Stripping twice equals stripping once. |
| AskAi.FormatDocs | blogs/views.py:140-141 | No chunks give "". One chunk gives its text. The context length is the chunk lengths plus two characters per gap. |
| AskAi.FormatDocsInOrder | blogs/views.py:140-141 | Chunk i's text sits at its offset in the context, in retrieval order. A blank line precedes every chunk but the first. |
| AskAi.GatedAnswer | blogs/views.py:195-247 | The gate: with nothing retrieved, the answer is the fixed sentence and never a failure. Otherwise it is the model's output on the formatted context and the question. |
| AskAi.ZeroRetrievalSkipsModel | blogs/views.py:195-196 | With nothing retrieved, the intended handler answers and records the fixed sentence, whatever the model would return. |
| AskAi.ModelSeesContextAndQuestion | blogs/views.py:237-247 | The intended handler's exchange depends on the model only at the formatted context and the literal question. |
| AskAi.SaveTurn | blogs/views.py:263-271 | The new history is the old one (empty when absent), unchanged, with the new turn appended last. |
| AskAi.SaveAllInOrder | blogs/views.py:263-271 | Turns saved one request after another appear after the earlier history, in the order they were asked. |
| AskAi.AskAsWritten | blogs/views.py:195-267 | As written, a turn succeeds exactly when something was retrieved and the model answered. Every other path ends in the unbound-answer error. On success, the answer is the model's text stripped, and the history is the old history plus that question and answer. |
| AskAi.AsWrittenZeroRetrievalFails | blogs/views.py:195-267 | As written, a question that retrieves nothing always ends in the unbound-answer error. |
| AskAi.AsWrittenFailureFails | blogs/views.py:246-255 | As written, a failed model call always ends in the unbound-answer error. |
| AskAi.Ask | blogs/views.py:193-271 | Intended behaviour: an error occurs exactly when something was retrieved and the model failed, and it is reported as unavailable. Zero retrieval answers and records the fixed sentence. Otherwise the answer is the model's text stripped, and it is recorded after the old history. |
| AskAi.AskExtendsAsWritten | blogs/views.py:246-271 | Wherever the code as written produces a turn, the intended handler produces the same turn. |

## Left out

- Django ORM and HTTP plumbing are left out because they are framework behaviour. This covers `posts_by_category`, comment saving and the redirect, `search`, `get_object_or_404` and `render` (blogs/views.py:21-51, 128-137).
- The final lookup `Blog.objects.filter(id__in=...)` (line 111) is a database query, and it does not keep the ranked order. The model stops at the id list.
- The embedding texts `title + ". " + short_description` (lines 58, 70) feed only the embedding model, so `Post` keeps just `id` and `status`.
- Embeddings, the Chroma vector stores and the similarity search (lines 74-86, 177-193) are foreign code with floating-point vectors. Their output is the `hits` / `retrieved` argument. The search depth `k=10` bounds how many hits there are, but no contract depends on it, so it is not modelled.
- `RecursiveCharacterTextSplitter` (lines 168-172) is a third-party algorithm that is not visible here. Chunking and its overlap are not modelled.
- The prompt template, the hosted model and the chain invocation (lines 204-247) are a network call with nondeterministic output. The model is the `generate` parameter.
- The chain retrieves a second time for its context (line 238). The model formats the context from the single `retrieved` list, which assumes a deterministic retriever.
- Recommend.RecommendedIds: "every id is a published post" is promised only when every hit is a candidate. If the vector store returns ids from earlier requests (line 82), a hit can name a non-candidate, even a draft post, and then the selected ids can include it.
- `random.shuffle` (line 107) is randomness. It is modelled as any function that returns a permutation of its argument.
- A POST without a `question` field is not modelled. There `request.POST.get("question")` is `None` (line 149), and that value goes to the retriever (line 193) and into the history (line 266). The model's `question` is always a string.
- The view queries the post table three times: the count at line 64, the loop at line 69 and the fallback query at line 104. The model reads the candidate list once, so it assumes the table does not change during the request. "Exactly min(3, candidates) ids" depends on that.
- The GET path of `ask_ai_blog` is not modelled: it reads `user_question`, which is unassigned there (line 266).
- The HTML wrapping of `ai_answer` (lines 252-257) and the debug `print` calls are presentation only.
- `Text.IsSpace` lists the characters `str.isspace()` accepts. It does not model the rest of Python's string machinery.

## Findings

| source | as written | input that shows it | evidently intended | confidence | as-written member | corrected member |
|---|---|---|---|---|---|---|
| blogs/views.py:195-196, 263-268 | With zero chunks retrieved, only `ai_answer` is set. The history append then reads `raw_answer.strip()`, and `raw_answer` was never assigned on this path, so the request fails. | A POST whose retriever returns no chunks | Record the fixed "not relevant" sentence as the turn's answer | medium, not executed | AskAi.AskAsWritten, AskAi.AsWrittenZeroRetrievalFails | AskAi.Ask, AskAi.AskExtendsAsWritten |
| blogs/views.py:246-255 | A model error is caught and printed. The next statement reads `raw_answer.strip()`, and `raw_answer` is unassigned, so the request fails anyway. | A POST whose model call raises (network, quota, timeout) | Report the failure as an explicit result and add no answer-less history entry | high, not executed | AskAi.AskAsWritten, AskAi.AsWrittenFailureFails | AskAi.Ask, AskAi.AskExtendsAsWritten |

=== FILE: ask_ai.dfy ===
/**
 The deterministic part of the "ask the AI about this post" view: formatting
 the retrieved chunks into one context, the zero-retrieval gate, and the
 chat history kept in the session.

 The text splitter, the embeddings, the vector store and the hosted language
 model are not modelled. What the retriever returns is the `retrieved`
 argument, and the model is the `generate` argument: a function from the
 context and the question to an answer or a failure.
 */
module AskAi {
  import opened Text

  /** The answer given when nothing relevant was retrieved. */
  const NotRelevantSentence: string := "This question is not relevant with respect to this blog post."

  /** What separates two chunks in the context: a blank line. */
  const BlankLine: string := "\n\n"

  /** A retrieved chunk of the post's text. */
  datatype Chunk = Chunk(pageContent: string)

  /** The outcome of one call of the language model. */
  datatype Generation = Answered(text: string) | Failed

  /** One question and its answer, as kept in the session. */
  datatype ChatTurn = ChatTurn(question: string, answer: string)

  datatype Option<T> = None | Some(value: T)

  datatype AskError =
    | AnswerUnbound         // the answer variable is read on a path that never assigned it
    | AssistantUnavailable  // the language model failed and no answer exists for this turn

  datatype Result<T> = Ok(value: T) | Err(error: AskError)

  /** What one question leaves behind: the answer recorded for the turn and the updated history. */
  datatype Exchange = Exchange(answer: string, history: seq<ChatTurn>)

  function Texts(docs: seq<Chunk>): (r: seq<string>)
    ensures |r| == |docs|
    ensures forall i :: 0 <= i < |docs| ==> r[i] == docs[i].pageContent
  {
    seq(|docs|, i requires 0 <= i < |docs| => docs[i].pageContent)
  }

  /** The context given to the model: chunk texts in retrieval order, separated by a blank line. */
  function FormatDocs(docs: seq<Chunk>): (r: string)
    ensures docs == [] ==> r == ""
    ensures |docs| == 1 ==> r == docs[0].pageContent
    ensures docs != [] ==> |r| == TotalLength(Texts(docs)) + |BlankLine| * (|docs| - 1)
  {
    Join(BlankLine, Texts(docs))
  }

  /**
   Chunk `i` sits in the context right after the texts of chunks `0..i` and one
   blank line between each neighbouring pair; a blank line precedes it unless it
   is the first.
   */
  lemma FormatDocsInOrder(docs: seq<Chunk>, i: nat)
    requires i < |docs|
    ensures var ctx, at := FormatDocs(docs), Offset(BlankLine, Texts(docs), i);
      && at + |docs[i].pageContent| <= |ctx|
      && ctx[at..at + |docs[i].pageContent|] == docs[i].pageContent
      && (i > 0 ==> ctx[at - 2..at] == BlankLine)
  {
    PartAtOffset(BlankLine, Texts(docs), i);
  }

  /**
   The relevance gate and the generation step: with nothing retrieved the
   fixed sentence is the answer and the model is never consulted; otherwise
   the model is asked with the formatted context and the question. The view
   keeps the sentence only as the displayed answer and never assigns the
   model's answer on that path; treating the sentence as the turn's answer is
   the intended behaviour (see `Ask`).
   */
  function GatedAnswer(retrieved: seq<Chunk>, question: string, generate: (string, string) -> Generation): (r: Generation)
    ensures retrieved == [] ==> r == Answered(NotRelevantSentence)
    ensures retrieved != [] ==> r == generate(FormatDocs(retrieved), question)
    ensures r.Failed? ==> retrieved != []
  {
    if retrieved == [] then Answered(NotRelevantSentence)
    else generate(FormatDocs(retrieved), question)
  }

  /** `session.get("chat_history", [])`: an absent history reads as empty. */
  function LoadHistory(stored: Option<seq<ChatTurn>>): (h: seq<ChatTurn>)
    ensures stored.None? ==> h == []
    ensures stored.Some? ==> h == stored.value
  {
    match stored
    case None => []
    case Some(h) => h
  }

  /** Appends one turn to the session's history and stores it back. */
  function SaveTurn(stored: Option<seq<ChatTurn>>, turn: ChatTurn): (r: seq<ChatTurn>)
    ensures |r| == |LoadHistory(stored)| + 1
    ensures r[..|r| - 1] == LoadHistory(stored)
    ensures r[|r| - 1] == turn
  {
    LoadHistory(stored) + [turn]
  }

  /** Saving a series of turns, one request after another. */
  function SaveAll(stored: Option<seq<ChatTurn>>, turns: seq<ChatTurn>): (r: seq<ChatTurn>)
    decreases |turns|
  {
    if turns == [] then LoadHistory(stored)
    else SaveAll(Some(SaveTurn(stored, turns[0])), turns[1..])
  }

  /** The history lists every saved turn after the earlier ones, in the order they were asked. */
  lemma {:induction false} SaveAllInOrder(stored: Option<seq<ChatTurn>>, turns: seq<ChatTurn>)
    ensures SaveAll(stored, turns) == LoadHistory(stored) + turns
    decreases |turns|
  {
    if turns != [] {
      SaveAllInOrder(Some(SaveTurn(stored, turns[0])), turns[1..]);
      assert LoadHistory(stored) + [turns[0]] + turns[1..] == LoadHistory(stored) + turns;
    }
  }

  /**
   One question as the view handles it. The zero-retrieval path sets only the
   displayed answer and then reads the model's answer for the history; the
   failure path catches the model's error and then reads that same unassigned
   answer. Both end in `AnswerUnbound`.
   */
  function AskAsWritten(stored: Option<seq<ChatTurn>>, question: string, retrieved: seq<Chunk>, generate: (string, string) -> Generation): (r: Result<Exchange>)
    ensures r.Ok? <==> retrieved != [] && generate(FormatDocs(retrieved), question).Answered?
    ensures r.Err? ==> r.error == AnswerUnbound
    ensures r.Ok? ==> r.value.answer == Strip(generate(FormatDocs(retrieved), question).text)
    ensures r.Ok? ==> r.value.history == SaveTurn(stored, ChatTurn(question, r.value.answer))
  {
    if retrieved == [] then Err(AnswerUnbound)
    else
      match generate(FormatDocs(retrieved), question)
      case Failed => Err(AnswerUnbound)
      case Answered(text) =>
        var answer := Strip(text);
        Ok(Exchange(answer, SaveTurn(stored, ChatTurn(question, answer))))
  }

  /** Whatever the model and the history, a question that retrieves nothing ends in an error. */
  lemma AsWrittenZeroRetrievalFails(stored: Option<seq<ChatTurn>>, question: string, generate: (string, string) -> Generation)
    ensures AskAsWritten(stored, question, [], generate) == Err(AnswerUnbound)
  {
  }

  /** A failed model call ends in an error instead of an answer-less turn. */
  lemma AsWrittenFailureFails(stored: Option<seq<ChatTurn>>, question: string, retrieved: seq<Chunk>, generate: (string, string) -> Generation)
    requires retrieved != []
    requires generate(FormatDocs(retrieved), question) == Failed
    ensures AskAsWritten(stored, question, retrieved, generate) == Err(AnswerUnbound)
  {
  }

  /**
   One question as intended: the zero-retrieval sentence is answered and
   recorded like any other answer, and a failed model call is reported as
   such, with nothing added to the history.
   */
  function Ask(stored: Option<seq<ChatTurn>>, question: string, retrieved: seq<Chunk>, generate: (string, string) -> Generation): (r: Result<Exchange>)
    ensures r.Err? <==> retrieved != [] && generate(FormatDocs(retrieved), question).Failed?
    ensures r.Err? ==> r.error == AssistantUnavailable
    ensures retrieved == [] ==> r.Ok? && r.value.answer == NotRelevantSentence
    ensures retrieved != [] && r.Ok? ==> r.value.answer == Strip(generate(FormatDocs(retrieved), question).text)
    ensures retrieved != [] && r.Ok? ==> Trimmed(r.value.answer)
    ensures r.Ok? ==> r.value.history == SaveTurn(stored, ChatTurn(question, r.value.answer))
  {
    match GatedAnswer(retrieved, question, generate)
    case Failed => Err(AssistantUnavailable)
    case Answered(text) =>
      var answer := if retrieved == [] then text else Strip(text);
      Ok(Exchange(answer, SaveTurn(stored, ChatTurn(question, answer))))
  }

  /** With nothing retrieved, the exchange is the same whatever the model would say. */
  lemma ZeroRetrievalSkipsModel(stored: Option<seq<ChatTurn>>, question: string, g1: (string, string) -> Generation, g2: (string, string) -> Generation)
    ensures Ask(stored, question, [], g1) == Ask(stored, question, [], g2)
    ensures Ask(stored, question, [], g1) == Ok(Exchange(NotRelevantSentence, SaveTurn(stored, ChatTurn(question, NotRelevantSentence))))
  {
  }

  /**
   The model is consulted only about the formatted context and the literal
   question: two models that agree there give the same exchange.
   */
  lemma ModelSeesContextAndQuestion(stored: Option<seq<ChatTurn>>, question: string, retrieved: seq<Chunk>, g1: (string, string) -> Generation, g2: (string, string) -> Generation)
    requires g1(FormatDocs(retrieved), question) == g2(FormatDocs(retrieved), question)
    ensures Ask(stored, question, retrieved, g1) == Ask(stored, question, retrieved, g2)
  {
  }

  /** Wherever the view as written produces a turn, the intended handler produces the same one. */
  lemma AskExtendsAsWritten(stored: Option<seq<ChatTurn>>, question: string, retrieved: seq<Chunk>, generate: (string, string) -> Generation)
    requires AskAsWritten(stored, question, retrieved, generate).Ok?
    ensures Ask(stored, question, retrieved, generate) == AskAsWritten(stored, question, retrieved, generate)
  {
  }
}

=== FILE: recommend.dfy ===
/**
 The "recommended posts" selector of the single-post page.

 From the ids of the other published posts, a ranked list of similarity hits
 and a shuffle standing in for `random.shuffle`, it chooses at most three
 distinct post ids, never the current post's. The embedding model and the
 vector index are not modelled: their output is the `hits` argument.
 */
module Recommend {
  import opened Seqs

  /** How many posts the page recommends. */
  const MaxRecommended: nat := 3

  datatype Status = Draft | Published

  /** A blog post row, reduced to what the selector reads. */
  datatype Post = Post(id: int, status: Status)

  /** Post ids are primary keys. */
  predicate UniqueIds(posts: seq<Post>) {
    forall i, j :: 0 <= i < j < |posts| ==> posts[i].id != posts[j].id
  }

  /** `x` is the id of some published post of the table. */
  predicate IsPublishedId(posts: seq<Post>, x: int) {
    exists i :: 0 <= i < |posts| && posts[i].status == Published && posts[i].id == x
  }

  /** The candidate ids: every published post except the current one, in table order. */
  function OtherPublishedIds(posts: seq<Post>, current: int): (r: seq<int>)
    ensures forall x :: x in r <==> x != current && IsPublishedId(posts, x)
    ensures UniqueIds(posts) ==> Distinct(r)
  {
    if posts == [] then []
    else
      var rest := OtherPublishedIds(posts[1..], current);
      assert forall x :: IsPublishedId(posts[1..], x) ==> IsPublishedId(posts, x) by {
        forall x | IsPublishedId(posts[1..], x) ensures IsPublishedId(posts, x) {
          var i :| 0 <= i < |posts[1..]| && posts[1..][i].status == Published && posts[1..][i].id == x;
          assert posts[i + 1] == posts[1..][i];
        }
      }
      assert forall x :: IsPublishedId(posts, x) && x != posts[0].id ==> IsPublishedId(posts[1..], x) by {
        forall x | IsPublishedId(posts, x) && x != posts[0].id ensures IsPublishedId(posts[1..], x) {
          var i :| 0 <= i < |posts| && posts[i].status == Published && posts[i].id == x;
          assert posts[1..][i - 1] == posts[i];
        }
      }
      assert UniqueIds(posts) ==> UniqueIds(posts[1..]) && posts[0].id !in rest by {
        if UniqueIds(posts) {
          forall i, j | 0 <= i < j < |posts[1..]| ensures posts[1..][i].id != posts[1..][j].id {
            assert posts[1..][i] == posts[i + 1] && posts[1..][j] == posts[j + 1];
          }
          forall x | IsPublishedId(posts[1..], x) ensures x != posts[0].id {
            var i :| 0 <= i < |posts[1..]| && posts[1..][i].status == Published && posts[1..][i].id == x;
            assert posts[1..][i] == posts[i + 1];
          }
        }
      }
      if posts[0].status == Published && posts[0].id != current then
        assert UniqueIds(posts) ==> Distinct([posts[0].id] + rest) by {
          if UniqueIds(posts) {
            DistinctConcat([posts[0].id], rest);
          }
        }
        [posts[0].id] + rest
      else rest
  }

  /** The candidates keep the table's order: an earlier row's id comes first. */
  lemma {:induction false} OtherPublishedIdsInTableOrder(posts: seq<Post>, current: int)
    requires UniqueIds(posts)
    ensures var r := OtherPublishedIds(posts, current);
      forall i, j :: 0 <= i < j < |posts| && posts[i].id in r && posts[j].id in r ==>
        FirstIndex(r, posts[i].id) < FirstIndex(r, posts[j].id)
  {
    if posts != [] {
      var tail := posts[1..];
      var rest := OtherPublishedIds(tail, current);
      var r := OtherPublishedIds(posts, current);
      assert UniqueIds(tail) by {
        forall i, j | 0 <= i < j < |tail| ensures tail[i].id != tail[j].id {
          assert tail[i] == posts[i + 1] && tail[j] == posts[j + 1];
        }
      }
      assert posts[0].id !in rest by {
        forall k | 0 <= k < |tail| ensures tail[k].id != posts[0].id {
          assert tail[k] == posts[k + 1];
        }
      }
      OtherPublishedIdsInTableOrder(tail, current);
      forall i, j | 0 <= i < j < |posts| && posts[i].id in r && posts[j].id in r
        ensures FirstIndex(r, posts[i].id) < FirstIndex(r, posts[j].id)
      {
        var y := posts[j].id;
        assert posts[j] == tail[j - 1];
        assert y != posts[0].id;
        if i == 0 {
          assert r == [posts[0].id] + rest;
          FirstIndexCons(posts[0].id, rest, y);
        } else {
          var x := posts[i].id;
          assert posts[i] == tail[i - 1];
          assert x != posts[0].id;
          if r != rest {
            FirstIndexCons(posts[0].id, rest, x);
            FirstIndexCons(posts[0].id, rest, y);
          }
        }
      }
    }
  }

  /**
   The ranked phase: hit ids in rank order, each kept at its first occurrence
   only, the current post's id dropped.
   */
  function RankedIds(current: int, hits: seq<int>): (r: seq<int>)
    ensures Distinct(r)
    ensures current !in r
    ensures forall x :: x in r <==> x in hits && x != current
  {
    if hits == [] then []
    else
      var seen := RankedIds(current, hits[..|hits| - 1]);
      var id := hits[|hits| - 1];
      assert hits == hits[..|hits| - 1] + [id];
      if id != current && id !in seen then
        DistinctConcat(seen, [id]);
        seen + [id]
      else seen
  }

  /** `r` lists the ids it shares with `hits` in the order of their first hit. */
  predicate InHitOrder(hits: seq<int>, r: seq<int>) {
    forall i, j :: 0 <= i < j < |r| && r[i] in hits && r[j] in hits ==>
      FirstIndex(hits, r[i]) < FirstIndex(hits, r[j])
  }

  /** The ranked phase keeps the ranking: ids appear in the order they were first hit. */
  lemma {:induction false} RankedIdsInHitOrder(current: int, hits: seq<int>)
    ensures InHitOrder(hits, RankedIds(current, hits))
  {
    if hits != [] {
      var n := |hits| - 1;
      var seen := RankedIds(current, hits[..n]);
      RankedIdsInHitOrder(current, hits[..n]);
      forall x | x in seen
        ensures FirstIndex(hits, x) == FirstIndex(hits[..n], x) < n
      {
        FirstIndexPrefix(hits, n, x);
      }
      var id := hits[n];
      if id != current && id !in seen {
        assert id !in hits[..n];
        FirstIndexUnique(hits, id, n);
      }
    }
  }

  /** Two duplicate-free lists with the same elements, both in hit order, are equal. */
  lemma {:induction false} SameHitOrderSameList(hits: seq<int>, a: seq<int>, b: seq<int>)
    requires SubsetOf(a, hits)
    requires Distinct(a) && Distinct(b)
    requires forall x :: x in a <==> x in b
    requires InHitOrder(hits, a) && InHitOrder(hits, b)
    ensures a == b
    decreases |a|
  {
    if |a| == 0 || |b| == 0 {
      SameElemsEmpty(a, b);
    } else {
      var x, y := a[0], b[0];
      assert x in a && y in b;
      var i :| 0 <= i < |a| && a[i] == b[0];
      var j :| 0 <= j < |b| && b[j] == a[0];
      assert FirstIndex(hits, a[0]) <= FirstIndex(hits, a[i]);
      assert FirstIndex(hits, b[0]) <= FirstIndex(hits, b[j]);
      assert a[0] == b[0];
      var a', b' := a[1..], b[1..];
      forall x ensures x in a' <==> x in b' {
        assert x in a' <==> x in a && x != a[0];
        assert x in b' <==> x in b && x != b[0];
      }
      assert InHitOrder(hits, a') by {
        forall p, q | 0 <= p < q < |a'| ensures a'[p] == a[p + 1] && a'[q] == a[q + 1] { }
      }
      assert InHitOrder(hits, b') by {
        forall p, q | 0 <= p < q < |b'| ensures b'[p] == b[p + 1] && b'[q] == b[q + 1] { }
      }
      SameHitOrderSameList(hits, a', b');
      assert a == [a[0]] + a' && b == [b[0]] + b';
    }
  }

  /**
   Reference characterisation of the ranked phase: the only duplicate-free list
   holding exactly the hit ids other than the current one, in first-hit order,
   is `RankedIds`.
   */
  lemma RankedIdsUnique(current: int, hits: seq<int>, r: seq<int>)
    requires Distinct(r)
    requires forall x :: x in r <==> x in hits && x != current
    requires InHitOrder(hits, r)
    ensures r == RankedIds(current, hits)
  {
    RankedIdsInHitOrder(current, hits);
    SameHitOrderSameList(hits, r, RankedIds(current, hits));
  }

  /** The loop that collects the ranked ids, one hit at a time. */
  method CollectRankedIds(current: int, hits: seq<int>) returns (ids: seq<int>)
    ensures ids == RankedIds(current, hits)
    ensures Distinct(ids) && current !in ids
  {
    ids := [];
    for i := 0 to |hits|
      invariant ids == RankedIds(current, hits[..i])
    {
      var id := hits[i];
      assert hits[..i + 1][..i] == hits[..i];
      if id != current && id !in ids {
        ids := ids + [id];
      }
    }
    assert hits[..|hits|] == hits;
  }

  /** The ranked list cut to its first `MaxRecommended` ids. */
  function Top(ranked: seq<int>): (r: seq<int>)
    ensures r <= ranked
    ensures |r| <= MaxRecommended
    ensures |ranked| >= MaxRecommended ==> |r| == MaxRecommended
    ensures |ranked| < MaxRecommended ==> r == ranked
  {
    ranked[..Min(MaxRecommended, |ranked|)]
  }

  /** The backfill candidates: the other posts not yet chosen, in their order. */
  function Pool(others: seq<int>, chosen: seq<int>): (r: seq<int>)
    ensures forall x :: x in r <==> x in others && x !in chosen
    ensures Distinct(others) ==> Distinct(r)
  {
    if others == [] then []
    else
      var rest := Pool(others[1..], chosen);
      assert Distinct(others) ==> Distinct(others[1..]) && others[0] !in others[1..] by {
        assert forall k :: 0 <= k < |others[1..]| ==> others[1..][k] == others[k + 1];
      }
      if others[0] in chosen then rest
      else
        assert Distinct(others) ==> Distinct([others[0]] + rest) by {
          if Distinct(others) {
            DistinctConcat([others[0]], rest);
          }
        }
        [others[0]] + rest
  }

  /** The other posts that are already chosen: the complement of `Pool`. */
  function Taken(others: seq<int>, chosen: seq<int>): (r: seq<int>)
    ensures SubsetOf(r, chosen) && SubsetOf(r, others)
    ensures Distinct(others) ==> Distinct(r)
    ensures |Pool(others, chosen)| + |r| == |others|
  {
    if others == [] then []
    else
      var rest := Taken(others[1..], chosen);
      assert Distinct(others) ==> Distinct(others[1..]) && others[0] !in others[1..] by {
        assert forall k :: 0 <= k < |others[1..]| ==> others[1..][k] == others[k + 1];
      }
      if others[0] !in chosen then rest
      else
        assert Distinct(others) ==> Distinct([others[0]] + rest) by {
          if Distinct(others) {
            DistinctConcat([others[0]], rest);
          }
        }
        [others[0]] + rest
  }

  /** There are enough candidates left to make up for every id not chosen yet. */
  lemma PoolCoversShortfall(others: seq<int>, chosen: seq<int>)
    requires Distinct(others)
    ensures |Pool(others, chosen)| >= |others| - |chosen|
  {
    DistinctSubsetCard(Taken(others, chosen), chosen);
  }

  /** A stand-in for `random.shuffle`: whatever order it picks, it permutes its argument. */
  ghost predicate IsShuffle(shuffle: seq<int> -> seq<int>) {
    forall xs :: multiset(shuffle(xs)) == multiset(xs)
  }

  /**
   Backfill: append shuffled candidates to the chosen ids until there are
   `MaxRecommended` of them or the candidates run out.
   */
  function Backfill(chosen: seq<int>, shuffled: seq<int>): (r: seq<int>)
    requires |chosen| <= MaxRecommended
    ensures chosen <= r
    ensures r[|chosen|..] <= shuffled
    ensures |r| == Min(MaxRecommended, |chosen| + |shuffled|)
  {
    chosen + shuffled[..Min(MaxRecommended - |chosen|, |shuffled|)]
  }

  /**
   The selector. With fewer than `MaxRecommended` candidates it returns them
   as they are; otherwise it ranks, truncates and backfills.
   */
  function Recommend(current: int, others: seq<int>, hits: seq<int>, shuffle: seq<int> -> seq<int>): (r: seq<int>)
    requires Distinct(others) && current !in others
    requires IsShuffle(shuffle)
    ensures |r| == Min(MaxRecommended, |others|)
    ensures Distinct(r)
    ensures current !in r
    ensures forall x :: x in r ==> x in others || x in hits
    ensures SubsetOf(hits, others) ==> SubsetOf(r, others)
    ensures |others| < MaxRecommended ==> r == others
    ensures |others| >= MaxRecommended ==> Top(RankedIds(current, hits)) <= r
    ensures |others| >= MaxRecommended ==>
      r[|Top(RankedIds(current, hits))|..] <= shuffle(Pool(others, Top(RankedIds(current, hits))))
  {
    if |others| < MaxRecommended then others
    else
      var top := Top(RankedIds(current, hits));
      TopOfRanked(current, hits);
      if |top| < MaxRecommended then
        var shuffled := shuffle(Pool(others, top));
        BackfillFromPool(others, top, shuffled);
        Backfill(top, shuffled)
      else top
  }

  /** The truncated ranked list keeps the ranked list's guarantees. */
  lemma TopOfRanked(current: int, hits: seq<int>)
    ensures var top := Top(RankedIds(current, hits));
      Distinct(top) && current !in top && SubsetOf(top, hits)
  {
    var ranked := RankedIds(current, hits);
    var top := Top(ranked);
    assert forall k :: 0 <= k < |top| ==> top[k] == ranked[k];
  }

  /**
   Backfilling from a permutation of the fallback list reaches
   `MaxRecommended` distinct ids, each already chosen or a candidate.
   */
  lemma BackfillFromPool(others: seq<int>, chosen: seq<int>, shuffled: seq<int>)
    requires Distinct(others) && |others| >= MaxRecommended
    requires Distinct(chosen) && |chosen| < MaxRecommended
    requires multiset(shuffled) == multiset(Pool(others, chosen))
    ensures var r := Backfill(chosen, shuffled);
      && |r| == MaxRecommended
      && Distinct(r)
      && forall x :: x in r ==> x in chosen || x in others
  {
    var pool := Pool(others, chosen);
    assert |shuffled| == |pool| by {
      assert |multiset(shuffled)| == |multiset(pool)|;
    }
    PoolCoversShortfall(others, chosen);
    PermutationKeepsDistinct(pool, shuffled);
    var added := shuffled[..Min(MaxRecommended - |chosen|, |shuffled|)];
    forall x | x in added
      ensures x in others && x !in chosen
    {
      assert x in multiset(shuffled);
    }
    assert Distinct(added) by {
      assert forall k :: 0 <= k < |added| ==> added[k] == shuffled[k];
    }
    DistinctConcat(chosen, added);
    assert Backfill(chosen, shuffled) == chosen + added;
  }

  /**
   The selector on the post table: candidates are the other published posts.
   When the similarity hits name only candidates, every recommended id is a
   published post other than the current one.
   */
  function RecommendedIds(posts: seq<Post>, current: int, hits: seq<int>, shuffle: seq<int> -> seq<int>): (r: seq<int>)
    requires UniqueIds(posts)
    requires IsShuffle(shuffle)
    ensures Distinct(r) && current !in r
    ensures |r| == Min(MaxRecommended, |OtherPublishedIds(posts, current)|)
    ensures SubsetOf(hits, OtherPublishedIds(posts, current)) ==>
      forall x :: x in r ==> x != current && IsPublishedId(posts, x)
    ensures |OtherPublishedIds(posts, current)| < MaxRecommended ==> r == OtherPublishedIds(posts, current)
  {
    Recommend(current, OtherPublishedIds(posts, current), hits, shuffle)
  }
}

=== FILE: seqs.dfy ===
/**
 Sequence facts shared by the recommendation selector: distinctness,
 the set of elements of a sequence, first occurrences and permutations.
 */
module Seqs {

  function Min(a: int, b: int): (r: int)
    ensures r <= a && r <= b
    ensures r == a || r == b
  {
    if a <= b then a else b
  }

  /** No element occurs twice. */
  predicate Distinct<T(==)>(s: seq<T>) {
    forall i, j :: 0 <= i < j < |s| ==> s[i] != s[j]
  }

  /** Every element of `s` also occurs in `t`. */
  predicate SubsetOf<T(==)>(s: seq<T>, t: seq<T>) {
    forall i :: 0 <= i < |s| ==> s[i] in t
  }

  /** The set of elements of a sequence. */
  function Elems<T>(s: seq<T>): (r: set<T>) {
    set x | x in s
  }

  /** Position of the first occurrence of `x` in `s`. */
  function FirstIndex<T(==)>(s: seq<T>, x: T): (k: nat)
    requires x in s
    ensures k < |s| && s[k] == x
    ensures x !in s[..k]
  {
    if s[0] == x then 0
    else
      var k := 1 + FirstIndex(s[1..], x);
      assert s[..k] == [s[0]] + s[1..][..k - 1];
      k
  }

  /** Two lists with the same elements are empty together. */
  lemma SameElemsEmpty(a: seq<int>, b: seq<int>)
    requires forall x :: x in a <==> x in b
    ensures |a| == 0 <==> |b| == 0
  {
    if |a| > 0 {
      var x := a[0];
      assert x in a;
    }
    if |b| > 0 {
      var x := b[0];
      assert x in b;
    }
  }

  /** A set has at most as many elements as the sequence listing it. */
  lemma {:induction false} ElemsCard<T>(s: seq<T>)
    ensures |Elems(s)| <= |s|
  {
    if s != [] {
      ElemsCard(s[1..]);
      assert Elems(s) == Elems(s[1..]) + {s[0]};
    }
  }

  /** A duplicate-free sequence lists exactly as many elements as its set holds. */
  lemma {:induction false} DistinctElemsCard<T>(s: seq<T>)
    requires Distinct(s)
    ensures |Elems(s)| == |s|
  {
    if s != [] {
      DistinctElemsCard(s[1..]);
      assert Elems(s) == Elems(s[1..]) + {s[0]};
      assert forall j :: 0 <= j < |s[1..]| ==> s[1..][j] == s[1 + j];
      assert s[0] !in Elems(s[1..]);
    }
  }

  /** A duplicate-free sequence holds every value at most once. */
  lemma {:induction false} DistinctCountAtMostOne<T>(s: seq<T>, x: T)
    requires Distinct(s)
    ensures multiset(s)[x] <= 1
  {
    if s != [] {
      assert s == [s[0]] + s[1..];
      DistinctCountAtMostOne(s[1..], x);
      assert forall j :: 0 <= j < |s[1..]| ==> s[1..][j] == s[1 + j];
      assert s[0] !in s[1..];
    }
  }

  /** A permutation of a duplicate-free sequence is duplicate-free. */
  lemma PermutationKeepsDistinct<T>(a: seq<T>, b: seq<T>)
    requires multiset(a) == multiset(b)
    requires Distinct(a)
    ensures Distinct(b)
  {
    forall i, j | 0 <= i < j < |b|
      ensures b[i] != b[j]
    {
      if b[i] == b[j] {
        var x := b[i];
        assert b == b[..j] + [b[j]] + b[j + 1..];
        assert x in b[..j];
        assert multiset(b)[x] >= 2 by {
          assert multiset(b) == multiset(b[..j]) + multiset{x} + multiset(b[j + 1..]);
        }
        DistinctCountAtMostOne(a, x);
        assert false;
      }
    }
  }

  /** `FirstIndex` is the only position holding `x` with no earlier copy. */
  lemma FirstIndexUnique<T>(s: seq<T>, x: T, k: nat)
    requires k < |s| && s[k] == x && x !in s[..k]
    ensures FirstIndex(s, x) == k
  {
    var f := FirstIndex(s, x);
    assert forall m :: 0 <= m < k ==> s[..k][m] == s[m];
    assert forall m :: 0 <= m < f ==> s[..f][m] == s[m];
  }

  /** The first occurrence of `x` does not move when the sequence is cut after it. */
  lemma FirstIndexPrefix<T>(s: seq<T>, n: nat, x: T)
    requires n <= |s| && x in s[..n]
    ensures FirstIndex(s[..n], x) == FirstIndex(s, x)
  {
    var k := FirstIndex(s[..n], x);
    assert s[..n][..k] == s[..k];
    FirstIndexUnique(s, x, k);
  }

  /** Putting another element in front moves every first occurrence one place on. */
  lemma FirstIndexCons<T>(x: T, s: seq<T>, y: T)
    requires y in s && y != x
    ensures FirstIndex([x] + s, y) == 1 + FirstIndex(s, y)
  {
    assert ([x] + s)[1..] == s;
  }

  /** Joining two duplicate-free sequences with no common element keeps them duplicate-free. */
  lemma DistinctConcat<T>(a: seq<T>, b: seq<T>)
    requires Distinct(a) && Distinct(b)
    requires forall x :: x in b ==> x !in a
    ensures Distinct(a + b)
  {
    forall i, j | 0 <= i < j < |a + b|
      ensures (a + b)[i] != (a + b)[j]
    {
      if j < |a| {
        assert (a + b)[i] == a[i] && (a + b)[j] == a[j];
      } else if i < |a| {
        assert (a + b)[i] == a[i] && (a + b)[j] == b[j - |a|];
        assert b[j - |a|] in b;
      } else {
        assert (a + b)[i] == b[i - |a|] && (a + b)[j] == b[j - |a|];
      }
    }
  }

  /** A duplicate-free sequence drawn from `t` is no longer than `t`. */
  lemma DistinctSubsetCard<T>(s: seq<T>, t: seq<T>)
    requires Distinct(s) && SubsetOf(s, t)
    ensures |s| <= |t|
  {
    DistinctElemsCard(s);
    ElemsCard(t);
    var e, f := Elems(s), Elems(t);
    assert e <= f;
    assert f == (f - e) + e;
    assert (f - e) * e == {};
  }
}

=== FILE: text.dfy ===
/**
 The two string operations the ask-AI view relies on: Python's
 `str.join`, which glues retrieved chunk texts into one context, and
 `str.strip()` without arguments, applied to the model's answer.
 */
module Text {

  /** Sum of the lengths of the parts. */
  function TotalLength(parts: seq<string>): (r: nat) {
    if parts == [] then 0 else |parts[0]| + TotalLength(parts[1..])
  }

  /** `sep.join(parts)`. */
  function Join(sep: string, parts: seq<string>): (r: string)
    ensures |parts| == 0 ==> r == ""
    ensures |parts| == 1 ==> r == parts[0]
    ensures |parts| > 0 ==> |r| == TotalLength(parts) + |sep| * (|parts| - 1)
    ensures |parts| > 0 ==> parts[0] <= r
  {
    if |parts| == 0 then ""
    else if |parts| == 1 then parts[0]
    else parts[0] + sep + Join(sep, parts[1..])
  }

  /** Joining a list equals joining a prefix and the rest around one separator. */
  lemma {:induction false} JoinSplit(sep: string, parts: seq<string>, k: nat)
    requires 0 < k < |parts|
    ensures Join(sep, parts) == Join(sep, parts[..k]) + sep + Join(sep, parts[k..])
  {
    if k > 1 {
      var tail := parts[1..];
      JoinSplit(sep, tail, k - 1);
      assert tail[..k - 1] == parts[1..k] && tail[k - 1..] == parts[k..];
      assert parts[..k][1..] == parts[1..k];
    } else {
      assert parts[k..] == parts[1..];
    }
  }

  /** Where part `i` starts in the joined string. */
  function Offset(sep: string, parts: seq<string>, i: nat): (r: nat)
    requires i <= |parts|
  {
    TotalLength(parts[..i]) + |sep| * i
  }

  /** In `a + b + c`, `b` sits right after `a` and any prefix of `c` right after `b`. */
  lemma ConcatSlices(a: string, b: string, c: string, p: string)
    requires p <= c
    ensures (a + b + c)[|a|..|a| + |b|] == b
    ensures (a + b + c)[|a| + |b|..|a| + |b| + |p|] == p
  {
    var w := a + b + c;
    assert forall m :: 0 <= m < |b| ==> w[|a| + m] == b[m];
    assert forall m :: 0 <= m < |p| ==> w[|a| + |b| + m] == c[m] == p[m];
  }

  /**
   Every part appears in the joined string, in list order, at its offset, and
   every part but the first is preceded by the separator.
   */
  lemma PartAtOffset(sep: string, parts: seq<string>, i: nat)
    requires i < |parts|
    ensures Offset(sep, parts, i) + |parts[i]| <= |Join(sep, parts)|
    ensures Join(sep, parts)[Offset(sep, parts, i)..Offset(sep, parts, i) + |parts[i]|] == parts[i]
    ensures i > 0 ==> Join(sep, parts)[Offset(sep, parts, i) - |sep|..Offset(sep, parts, i)] == sep
  {
    if i == 0 {
      assert parts[..0] == [];
    } else {
      JoinSplit(sep, parts, i);
      var left, right := Join(sep, parts[..i]), Join(sep, parts[i..]);
      assert |left| == TotalLength(parts[..i]) + |sep| * (i - 1);
      assert |sep| * (i - 1) + |sep| == |sep| * i;
      assert Offset(sep, parts, i) == |left| + |sep|;
      assert parts[i..][0] == parts[i];
      ConcatSlices(left, sep, right, parts[i]);
    }
  }

  /**
   The characters `str.isspace` accepts: the ASCII controls tab to carriage
   return, the separators 0x1C-0x1F, space, and the Unicode spaces.
   */
  predicate IsSpace(c: char) {
    || ('\t' <= c <= '\r')
    || ('\U{001C}' <= c <= ' ')
    || c == '\U{0085}' || c == '\U{00A0}' || c == '\U{1680}'
    || ('\U{2000}' <= c <= '\U{200A}')
    || c == '\U{2028}' || c == '\U{2029}' || c == '\U{202F}' || c == '\U{205F}' || c == '\U{3000}'
  }

  predicate AllSpace(s: string) {
    forall i :: 0 <= i < |s| ==> IsSpace(s[i])
  }

  /** Neither end of `s` is whitespace. */
  predicate Trimmed(s: string) {
    s == [] || (!IsSpace(s[0]) && !IsSpace(s[|s| - 1]))
  }

  /** Index of the first non-whitespace character at or after `i`, or `|s|` if there is none. */
  function SkipSpace(s: string, i: nat): (k: nat)
    requires i <= |s|
    ensures i <= k <= |s|
    ensures forall m :: i <= m < k ==> IsSpace(s[m])
    ensures k < |s| ==> !IsSpace(s[k])
    decreases |s| - i
  {
    if i < |s| && IsSpace(s[i]) then SkipSpace(s, i + 1) else i
  }

  /** Index just past the last non-whitespace character of `s[lo..j]`, or `lo` if there is none. */
  function SkipSpaceBack(s: string, lo: nat, j: nat): (e: nat)
    requires lo <= j <= |s|
    ensures lo <= e <= j
    ensures forall m :: e <= m < j ==> IsSpace(s[m])
    ensures e > lo ==> !IsSpace(s[e - 1])
  {
    if j > lo && IsSpace(s[j - 1]) then SkipSpaceBack(s, lo, j - 1) else j
  }

  /**
   `str.strip()`: the result has no whitespace at either end and is the middle
   of `s` once a whitespace-only head and tail are removed.
   */
  function Strip(s: string): (r: string)
    ensures Trimmed(r)
    ensures exists k :: 0 <= k && k + |r| <= |s| && r == s[k..k + |r|] && AllSpace(s[..k]) && AllSpace(s[k + |r|..])
  {
    var k := SkipSpace(s, 0);
    var e := SkipSpaceBack(s, k, |s|);
    var r := s[k..e];
    assert AllSpace(s[..k]);
    assert AllSpace(s[e..]);
    assert r != [] ==> r[0] == s[k] && r[|r| - 1] == s[e - 1];
    r
  }

  /**
   Reference characterisation of `str.strip()`: a trimmed slice of `s` whose
   head and tail are whitespace only is the stripped string.
   */
  lemma StripUnique(s: string, k: nat, r: string)
    requires k + |r| <= |s| && r == s[k..k + |r|]
    requires AllSpace(s[..k]) && AllSpace(s[k + |r|..])
    requires Trimmed(r)
    ensures Strip(s) == r
  {
    var e := k + |r|;
    assert forall m :: 0 <= m < k ==> s[..k][m] == s[m];
    assert forall m :: e <= m < |s| ==> s[e..][m - e] == s[m];
    var k' := SkipSpace(s, 0);
    if r == [] {
      assert forall m :: 0 <= m < |s| ==> IsSpace(s[m]);
      assert k' == |s|;
    } else {
      assert s[k] == r[0] && s[e - 1] == r[|r| - 1];
      assert k' == k;
      var e' := SkipSpaceBack(s, k, |s|);
      assert e' == e;
    }
  }

  /** A string with no whitespace at its ends is left as it is. */
  lemma StripTrimmed(s: string)
    requires Trimmed(s)
    ensures Strip(s) == s
  {
    assert s[..0] == [] && s[|s|..] == [];
    StripUnique(s, 0, s);
  }

  /** Stripping twice is stripping once. */
  lemma StripIdempotent(s: string)
    ensures Strip(Strip(s)) == Strip(s)
  {
    StripTrimmed(Strip(s));
  }
}
